=== FILE: README.md ===
# paper-year-list: the year picker's state logic in Dafny

`paper-year-list` is a Polymer element that shows a scrollable list of years
and binds the chosen year to a `date`. Beneath the template and the scrolling
there is a small piece of deterministic state logic, and this project models it:

- **Year sequence** (`years.dfy`, module `Years`): `_computeYears(min, max)`
  turns the two bounds into the ascending, contiguous items array `min..max`,
  or `undefined` when a bound is not a number. Row index `Y - min` holds year `Y`.
- **Range handling** (`years.dfy`, `year_list.dfy`): `_withinRange` is an inclusive
  test in which a bound of `0` is falsy and therefore counts as "no bound". The
  `min` and `max` observers reset a non-number to 1900 or 2100.
- **Selection synchroniser** (`year_list.dfy`, module `YearList`): an immutable
  `State` record holds the bounds, the items array, the bound `date` (a year and
  an opaque remainder), `selected` (`Option<int>`, `None` for `null`), the list
  widget's selection (`listSel`, a row index), and a trace of outward effects
  (date assignments and list-widget calls). `_dateChange`, `_selectedChange`,
  `_selectYearInList` and `_tappedYearHandler` are pure functions over it.

Property-change semantics are explicit. Assigning a property runs its observer
synchronously, nested inside the observer that made the assignment, and only
when the value changed. For `selected`, "changed" means a different year or
`null`. The widget's own date write (paper-year-list.js:174) is always a
fresh `Date` instance, and the model treats every date assignment as one, so a
date assignment always runs the date observer. The resulting mutual recursion
(`SetSelected` → `SelectedChange` → `SetDate` → `DateChange` → `SetSelected`)
terminates because of the equality guards. Its termination measure says so.

`year_list_props.dfy` (module `YearListProperties`) states what the
synchroniser guarantees:
- the exact outcome and effect sequence of every transition;
- the single date write that breaks the date/selected cycle;
- idempotence of taps and of assignments;
- invariants along arbitrary runs of actions;
- a few example scenarios.

What the code does, set against its own comments:
- The comment on `selected` (paper-year-list.js:71-73) says it is the date's year, or `null` if that year is out of range. `SelectionFollowsDate` states this relation. Date assignments, taps and in-range assignments of `selected` keep it (`ApplyKeepsSynced`, `RunKeepsSynced`). A programmatic assignment can leave it broken:
  - `null` while the date's year is in range leaves `selected` `null` (`SelectNullBreaksDateSelection`);
  - the date's own year while it is out of range stays selected (`SelectOutOfRangeDateYearBreaksDateSelection`).
- Assigning `selected` a year that is out of range and differs from the date's year rewrites the date. The nested date observer then resets `selected` to `null` and clears the list. Afterwards the outer observer asks the list to select index `y - min`, which is outside the list's rows. In this model the list is a plain field, so that selection stays recorded while `selected` is `null` (`SelectOutOfRangeOutcome`).
- The bound observers (paper-year-list.js:153-162) test only `typeof value === 'number'`.
- A change of `min` or `max` does not re-synchronise `selected` and makes no call on the list (`MinChangeLeavesListIndexStale`).
- The range test treats a bound of 0 as no bound (paper-year-list.js:201), while the items stop at the bound. With `max` set to 0 the items are empty, yet a 2023 date assigned afterwards is selected and the list is asked for index 123, which has no row (`ZeroMaxSelectsIndexWithoutRow`). With both bounds non-zero, a selection that follows the date has a list index that is the selected year's row (`SelectedIndexIsRow`).

## Model

| member | source | states |
|---|---|---|
| Years.YearRange | paper-year-list.js:140-144 | the items for bounds `lo, hi` number `hi - lo + 1` (none when `lo > hi`), and item `i` is year `lo + i`: ascending and contiguous |
| Years.ComputeYears | paper-year-list.js:136-145 | the loop returns no array exactly when a bound is not a number; otherwise `max - min + 1` items (empty for `min > max`), item `i` being `min + i`, equal to `YearRange(min, max)` |
| Years.RowIndexAddressesYear | paper-year-list.js:181-184 | for a year within the bounds, index `year - min` is a valid row and holds that year |
| Years.InYearRange | paper-year-list.js:140-144 | a year is among the items exactly when `min <= year <= max` |
| Years.WithinRange | paper-year-list.js:200-202 | with non-zero bounds the test is the inclusive interval `min <= year <= max`; a bound of 0 imposes no constraint on its side |
| Years.RowsAreWithinRange | paper-year-list.js:200-202 | every row of the list passes the range test, whatever the bounds |
| Values.WithYear | paper-year-list.js:174 | replacing the year keeps the rest of the date, and yields the same date exactly when the year was already that year |
| YearList.SetSelected | paper-year-list.js:75-79 | assigning the current value changes nothing; `null` never touches the date; a new year puts that year in the date; a year the date observer accepts back ends selected and keeps the state synchronised; bounds and items are untouched; the trace only grows |
| YearList.SelectedChange | paper-year-list.js:167-177 | on `null` the list selection is cleared and the date kept; on year `y` the date ends with year `y` and its remainder kept, and the list selects index `y - min` |
| YearList.SelectYearInList | paper-year-list.js:181-184 | the list selects index `year - min`, which for a valid state and a year within the bounds is the row holding that year |
| YearList.SetDate | paper-year-list.js:50-54 | after assigning date `d`, `selected` is `d`'s year if within range and `null` otherwise; the date is `d`; a list that tracked the selection before ends synchronised |
| YearList.DateChange | paper-year-list.js:149-152 | the date observer sets `selected` to the date's year when within range and to `null` otherwise, and never changes the date |
| YearList.Tap | paper-year-list.js:189-196 | tapping the selected year's row changes nothing; tapping another row makes its year the selected year and the date's year |
| YearList.SetMin | paper-year-list.js:158-162 | `min` ends as the assigned number, or 1900 for a non-number; the items are recomputed; date, selection and list are untouched |
| YearList.SetMax | paper-year-list.js:153-157 | `max` ends as the assigned number, or 2100 for a non-number; the items are recomputed; date, selection and list are untouched |
| YearList.Attach | paper-year-list.js:58-70 | a fresh element has bounds 1900 and 2100 with their items; its first date assignment is recorded first in the trace and selects that date's year if within range; the state is synchronised |
| YearListProperties.SetDateOutcome | paper-year-list.js:149-152 | the full result of a date assignment: selected year, list selection and effect sequence, with the list touched only when `selected` changed |
| YearListProperties.SetDateWritesOnce | paper-year-list.js:172-175 | a date assignment leads to exactly one date write: the `selected` observer it triggers does not write the date back |
| YearListProperties.SelectNullOutcome | paper-year-list.js:168-171 | assigning `null` clears the list selection if a year was selected, and never touches the date |
| YearListProperties.SelectYearOutcome | paper-year-list.js:172-176 | assigning a new acceptable year `y` leaves `selected == y`, the date's year `y` with its remainder kept, list index `y - min`, and a date write only if the year differed |
| YearListProperties.SelectYearWritesDateOnlyIfYearDiffers | paper-year-list.js:172-175 | the number of date writes grows by one exactly when `selected` changed and the date's year differed, and by zero otherwise |
| YearListProperties.SelectOutOfRangeOutcome | paper-year-list.js:167-184 | assigning an out-of-range year other than the date's year writes the date, lets the date observer reset `selected` to `null` and clear the list, then still asks the list for index `y - min`, which in a valid state lies outside the rows; with the list as a plain field the state is left unsynchronised |
| YearListProperties.SelectInRangeFollowsDate | paper-year-list.js:71-73 | assigning an in-range year to `selected` keeps `selected` equal to the date's year (or `null` when out of range), with list index `selected - min` |
| YearListProperties.SelectNullBreaksDateSelection | paper-year-list.js:167-171 | assigning `null` while the date's year is in range leaves the date alone and `selected` `null`, against the relation of the comment at 71-73 |
| YearListProperties.SelectOutOfRangeDateYearBreaksDateSelection | paper-year-list.js:172-176 | assigning the date's own out-of-range year writes no date and leaves that year selected and list index `y - min` requested, synchronised but not `null` as the comment at 71-73 says |
| YearListProperties.SetSelectedOutOfRangeTwice | paper-year-list.js:167-176 | assigning the same out-of-range year twice is not idempotent: the first ends on `null`, the second on the year |
| YearListProperties.SetSelectedIdempotent | paper-year-list.js:167-177 | assigning the same acceptable value twice is the same as assigning it once |
| YearListProperties.TapOutcome | paper-year-list.js:189-196 | tapping row `i` of another year selects year `min + i`, writes it into the date (only if different), selects row `i` in the list, and leaves the state synchronised |
| YearListProperties.TapIdempotent | paper-year-list.js:192 | tapping the same row twice is the same as tapping it once |
| YearListProperties.MinChangeLeavesListIndexStale | paper-year-list.js:158-162 | moving `min` while a year is selected makes no call on the list and keeps `selected`; with the list as a plain field the recorded index then no longer matches `selected - min` |
| YearListProperties.SelectedIndexIsRow | paper-year-list.js:181-184 | with both bounds non-zero and the items computed from them, a selection that follows the date has a list index that is a row holding the selected year |
| YearListProperties.ZeroMaxSelectsIndexWithoutRow | paper-year-list.js:200-202 | with `max` 0 the items are empty, yet a 2023 date assigned afterwards is selected and the list is asked for index 123 (the call is in the trace), which has no row |
| YearListProperties.RunKeepsValid | paper-year-list.js:83-86 | along any sequence of actions the items array stays the one computed from the current bounds |
| YearListProperties.ApplyKeepsSynced | paper-year-list.js:149-196 | a date assignment, a tap, a `null` assignment or an assignment of an acceptable year keeps date, `selected` and list selection in step; a date assignment, a tap or an in-range assignment also keeps `selected` equal to the date's year when in range and `null` otherwise (comment at 71-73) |
| YearListProperties.RunKeepsSynced | paper-year-list.js:149-196 | along any run of such actions every state is synchronised; along any run of date assignments, taps and in-range assignments `selected` stays the date's year when in range and `null` otherwise, with list index `selected - min` |
| YearListProperties.ScenarioTapAnotherYear | paper-year-list.js:189-196 | default bounds and a 2023 date select 2023 at row 123; tapping row 99 selects 1999 and moves the date to 1999 with month and day kept |
| YearListProperties.ScenarioDateOutOfRange | paper-year-list.js:149-152 | with bounds 2000 to 2010, a 1990 date leaves nothing selected and no list selection |

## Left out

- `centerSelected` (paper-year-list.js:109-124): scroll arithmetic on pixel measurements, float averages and a deferred callback. It is layout and timing, not state logic.
- The resize-handler override in `ready()` (paper-year-list.js:93-105): it replaces a private method of the list widget and debounces it.
- Template, styles and `_addSelectedClass` (paper-year-list.js:11-45, 128-132): presentation only.
- The `value()` default of `_years` (paper-year-list.js:87-89): the `computed` binding overrides it, and it reads `getFullYear` off a number.
- JavaScript `Date` semantics: a date is a year plus an opaque remainder. Month/day rollover from `setFullYear` (29 February into a non-leap year) is not modelled. Neither is the in-place mutation of the old `Date` object that `setFullYear` performs before the copy is made.
- Numbers are mathematical integers. `NaN`, infinities and fractional years are not modelled, though `typeof` calls them numbers. Attribute strings deserialised to `NaN` for a `Number` property are not modelled either.
- The state before `date` is first assigned: `date` and `selected` start `undefined`. In the source, assigning a year to `selected` before `date` is set throws at `this.date.getFullYear()` (paper-year-list.js:172), and so does a tap; assigning `null` only clears the list (168-170). The model's states always carry a date, and the initial `undefined` of `selected` is folded into `None`, so the first out-of-range date records no list-clear call.
- The list widget is a plain field (`listSel`) and a trace of calls. Its own handling of `selectIndex` with an index outside its items, its `selectItem` identity lookup beyond "the tapped row", and its reaction to a new items array are not modelled, because its code is not part of this model.
- Re-assigning the date instance the element already holds (`el.date = el.date`): under the `!==` rule no observer runs, but the model's date assignment always runs the date observer. After a programmatic `null` with an in-range date, the source would therefore keep `selected` `null` where the model selects the year again. The model has no object identity for dates.
- Assigning `null` or `undefined` to `date` after start-up: the source throws at `date.getFullYear()` (paper-year-list.js:150). The model's dates always have a year.
- The `selected-changed` and `date-changed` events: the trace records each date assignment, but not the order in which notifications are dispatched.
- The ripple effect and custom-element registration: foreign libraries.

=== FILE: values.dfy ===
/**
 The values the year list works with: an optional value (JavaScript's
 `null` for the `selected` year), a property value that may or may not be a
 number (what `typeof x === 'number'` distinguishes), and a date reduced to
 the only part the widget reads or writes, its full year.
 */
module Values {

  /** `None` stands for `null`: no year is selected, or the list has no selection. */
  datatype Option<+T> = None | Some(value: T)

  /** A property value as the bound observers see it: a number, or anything else
      (a string such as "abc", `undefined`, an object). */
  datatype JsValue = Num(n: int) | NonNumber

  /** A date as the widget sees it: the full year, and an opaque remainder
      (month, day, time of day) that the widget carries along unchanged when it
      replaces the year. */
  datatype Date = Date(year: int, rest: int)

  /** The date that `setFullYear(y)` produces: same remainder, new year. */
  function WithYear(d: Date, y: int): (r: Date)
    ensures r.year == y
    ensures r.rest == d.rest
    ensures r == d <==> d.year == y
  {
    d.(year := y)
  }
}

=== FILE: year_list.dfy ===
/**
 The year list's state and the observers that keep its three views of the
 selection in step: the bound `date`, the `selected` year, and the list
 widget's own selection.

 Property-change semantics: assigning a property runs its observer at once,
 nested inside whatever observer made the assignment, and only when the new
 value differs from the old one (`===`). For `selected` that is a comparison
 of years or `null`. The widget's own date write is always a new `Date`
 instance, and the model takes every date assignment to be one, so a date
 assignment always runs the date observer.
 */
module YearList {
  import opened Values
  import opened Years

  /** What happens at the element's boundary, in order: every assignment of a
      new date, whether the consumer's (the first one included) or the
      widget's own, and every call on the list widget. */
  datatype Event =
    | DateWritten(date: Date)
    | ListCleared
    | ListIndexSelected(index: int)
    | ListItemSelected(index: int)

  /** One year-list element after its bound observers have settled.
      `years` is the list's items array; `listSel` is the index the list
      widget has selected, if any; `trace` is everything done so far. */
  datatype State = State(
    min: int,
    max: int,
    years: seq<int>,
    date: Date,
    selected: Option<int>,
    listSel: Option<int>,
    trace: seq<Event>)

  /** The items array is the one computed from the current bounds. */
  predicate Valid(s: State)
  {
    s.years == YearRange(s.min, s.max)
  }

  /** The list widget's selection is index `selected - min`, and there is no
      list selection when nothing is selected. (With a bound of 0 a selected
      year may have no row, so the index need not be a row of the list.) */
  predicate ListTracksSelection(s: State)
  {
    s.listSel == if s.selected.Some? then Some(s.selected.value - s.min) else None
  }

  /** The relationship the synchroniser maintains: a selected year is the
      date's year and the list's selected index is `selected - min`; no
      selected year means no list selection. */
  predicate Synced(s: State)
  {
    && ListTracksSelection(s)
    && (s.selected.Some? ==> s.date.year == s.selected.value)
  }

  /** The full relation the comment on the `selected` property promises: it is
      the date's year when that year is within range and `null` otherwise, and
      the list's selected index is `selected - min`. */
  predicate SelectionFollowsDate(s: State)
  {
    && s.selected == DateSelection(s.min, s.max, s.date)
    && ListTracksSelection(s)
  }

  /** A year the `selected` observer can settle on: one the date observer
      accepts back, or the date's own year, which it never rewrites. */
  predicate Settles(s: State, y: int)
  {
    WithinRange(s.min, s.max, y) || y == s.date.year
  }

  /** The value the date observer gives `selected` for date `d`. */
  function DateSelection(min: int, max: int, d: Date): Option<int>
  {
    if WithinRange(min, max, d.year) then Some(d.year) else None
  }

  /** Termination measure of an assignment `selected := v`: no observer runs when
      `v` is the current value, and an observer for `null` never assigns again. */
  function SelRank(current: Option<int>, v: Option<int>): nat
  {
    if v == current then 0 else if v.None? then 2 else 6
  }

  /** Assigning `selected`: the observer runs only on a change. */
  function SetSelected(s: State, v: Option<int>): (r: State)
    ensures r.min == s.min && r.max == s.max && r.years == s.years
    ensures v.None? ==> r.date == s.date && r.selected == None
    ensures v == s.selected ==> r == s
    ensures v.Some? && v != s.selected ==> r.date == WithYear(s.date, v.value)
    ensures v.Some? && Settles(s, v.value) ==> r.selected == v
    ensures Synced(s) && (v.None? || Settles(s, v.value)) ==> Synced(r)
    ensures |s.trace| <= |r.trace| && r.trace[..|s.trace|] == s.trace
    decreases SelRank(s.selected, v)
  {
    if v == s.selected then s else SelectedChange(s.(selected := v))
  }

  /** The `selected` observer. `null` clears the list's selection and leaves the
      date alone. A year first rewrites the date, but only if the date's year
      differs, then selects index `y - min`. */
  function SelectedChange(s: State): (r: State)
    ensures r.min == s.min && r.max == s.max && r.years == s.years
    ensures s.selected.None? ==> r.date == s.date && r.selected == None && r.listSel == None
    ensures s.selected.Some? ==> r.date == WithYear(s.date, s.selected.value)
    ensures s.selected.Some? ==> r.listSel == Some(s.selected.value - s.min)
    ensures s.selected.Some? && Settles(s, s.selected.value) ==> Synced(r)
    ensures |s.trace| < |r.trace| && r.trace[..|s.trace|] == s.trace
    decreases if s.selected.None? then 1 else 5
  {
    match s.selected
    case None => s.(listSel := None, trace := s.trace + [ListCleared])
    case Some(y) =>
      var s1 := if y != s.date.year then SetDate(s, WithYear(s.date, y)) else s;
      SelectYearInList(s1, y)
  }

  /** Asks the list to select index `year - min`, the row of `year` when it is one. */
  function SelectYearInList(s: State, year: int): (r: State)
    ensures r.listSel == Some(year - s.min)
    ensures r.min == s.min && r.max == s.max && r.years == s.years
    ensures r.date == s.date && r.selected == s.selected
    ensures Valid(s) && s.min <= year <= s.max ==>
              r.listSel.value < |r.years| && r.years[r.listSel.value] == year
  {
    var index := year - s.min;
    s.(listSel := Some(index), trace := s.trace + [ListIndexSelected(index)])
  }

  /** Assigning a new date instance (the widget's own write, or a consumer
      assigning a different `Date`); the date observer always runs. */
  function SetDate(s: State, d: Date): (r: State)
    ensures r.date == d
    ensures r.min == s.min && r.max == s.max && r.years == s.years
    ensures r.selected == DateSelection(s.min, s.max, d)
    ensures ListTracksSelection(s) ==> Synced(r)
    ensures |s.trace| < |r.trace| && r.trace[..|s.trace|] == s.trace
    decreases SelRank(s.selected, DateSelection(s.min, s.max, d)) + 2
  {
    DateChange(s.(date := d, trace := s.trace + [DateWritten(d)]))
  }

  /** The date observer: `selected` becomes the date's year when it is within
      range and `null` otherwise. */
  function DateChange(s: State): (r: State)
    ensures r.date == s.date
    ensures r.min == s.min && r.max == s.max && r.years == s.years
    ensures r.selected == DateSelection(s.min, s.max, s.date)
    ensures ListTracksSelection(s) ==> Synced(r)
    ensures |s.trace| <= |r.trace| && r.trace[..|s.trace|] == s.trace
    decreases SelRank(s.selected, DateSelection(s.min, s.max, s.date)) + 1
  {
    SetSelected(s, DateSelection(s.min, s.max, s.date))
  }

  /** A tap on the row at index `row`. Tapping the selected year does nothing;
      any other year is selected in the list by item, then assigned to
      `selected`. */
  function Tap(s: State, row: nat): (r: State)
    requires row < |s.years|
    ensures r.min == s.min && r.max == s.max && r.years == s.years
    ensures s.selected == Some(s.years[row]) ==> r == s
    ensures Valid(s) && s.selected != Some(s.years[row]) ==>
              r.selected == Some(s.years[row]) && r.date.year == s.years[row]
  {
    var year := s.years[row];
    if s.selected == Some(year) then s
    else SetSelected(s.(listSel := Some(row), trace := s.trace + [ListItemSelected(row)]), Some(year))
  }

  /** Assigning the `min` property. A number different from the current bound
      recomputes the items; anything else is replaced by 1900 by the observer,
      and the items are recomputed from that. Nothing else is touched. */
  function SetMin(s: State, v: JsValue): (r: State)
    ensures r.min == (if v.Num? then v.n else DefaultMin)
    ensures r.max == s.max
    ensures Valid(s) || !v.Num? || v.n != s.min ==> Valid(r)
    ensures r.date == s.date && r.selected == s.selected && r.listSel == s.listSel
    ensures r.trace == s.trace
  {
    var m := SettleBound(v, DefaultMin);
    if v.Num? && m == s.min then s else s.(min := m, years := YearRange(m, s.max))
  }

  /** Assigning the `max` property; the mirror image of `SetMin`, with default 2100. */
  function SetMax(s: State, v: JsValue): (r: State)
    ensures r.max == (if v.Num? then v.n else DefaultMax)
    ensures r.min == s.min
    ensures Valid(s) || !v.Num? || v.n != s.max ==> Valid(r)
    ensures r.date == s.date && r.selected == s.selected && r.listSel == s.listSel
    ensures r.trace == s.trace
  {
    var m := SettleBound(v, DefaultMax);
    if v.Num? && m == s.max then s else s.(max := m, years := YearRange(s.min, m))
  }

  /** A freshly attached element with default bounds whose `date` is bound to
      `d`: the first date assignment is recorded and runs the date observer. */
  function Attach(d: Date): (r: State)
    ensures Valid(r) && Synced(r)
    ensures r.min == DefaultMin && r.max == DefaultMax && r.date == d
    ensures r.selected == DateSelection(DefaultMin, DefaultMax, d)
    ensures |r.trace| > 0 && r.trace[0] == DateWritten(d)
  {
    SetDate(State(DefaultMin, DefaultMax, YearRange(DefaultMin, DefaultMax), d, None, None, []), d)
  }
}

=== FILE: year_list_props.dfy ===
/**
 What the year list's synchroniser guarantees, stated over the transitions of
 module YearList: the exact outcome and effect sequence of each observer, the
 single date write that breaks the date/selected cycle, idempotence, the
 invariants that hold along any run, and a few example scenarios.
 */
module YearListProperties {
  import opened Values
  import opened Years
  import opened YearList

  /** Number of date assignments recorded in a trace. */
  function DateWrites(t: seq<Event>): nat
  {
    if t == [] then 0
    else DateWrites(t[..|t| - 1]) + (if t[|t| - 1].DateWritten? then 1 else 0)
  }

  lemma {:induction false} DateWritesAppend(a: seq<Event>, b: seq<Event>)
    ensures DateWrites(a + b) == DateWrites(a) + DateWrites(b)
    decreases |b|
  {
    if b == [] {
      assert a + b == a;
    } else {
      var b' := b[..|b| - 1];
      var last := if b[|b| - 1].DateWritten? then 1 else 0;
      assert (a + b)[..|a + b| - 1] == a + b';
      assert (a + b)[|a + b| - 1] == b[|b| - 1];
      assert DateWrites(a + b) == DateWrites(a + b') + last;
      assert DateWrites(b) == DateWrites(b') + last;
      DateWritesAppend(a, b');
    }
  }

  // ---------------------------------------------------------------------------
  // The date observer
  // ---------------------------------------------------------------------------

  /** Assigning a date: `selected` becomes the year when it is in range and
      `null` otherwise; the list follows only when `selected` actually changed;
      the date is written once and never written back. */
  lemma SetDateOutcome(s: State, d: Date)
    ensures var r := SetDate(s, d);
      var w := DateSelection(s.min, s.max, d);
      && r.date == d
      && r.selected == (if WithinRange(s.min, s.max, d.year) then Some(d.year) else None)
      && r.listSel == (if w == s.selected then s.listSel
                       else if w.None? then None else Some(d.year - s.min))
      && r.trace == s.trace + [DateWritten(d)]
                    + (if w == s.selected then []
                       else if w.None? then [ListCleared] else [ListIndexSelected(d.year - s.min)])
  {
    var w := DateSelection(s.min, s.max, d);
    var s1 := s.(date := d, trace := s.trace + [DateWritten(d)]);
    assert SetDate(s, d) == SetSelected(s1, w);
    if w != s.selected {
      var s2 := s1.(selected := w);
      assert SetSelected(s1, w) == SelectedChange(s2);
      match w
      case None =>
      case Some(y) =>
        assert y == s2.date.year;
        assert SelectedChange(s2) == SelectYearInList(s2, y);
    }
  }

  /** A date assignment causes exactly one date write: the `selected` observer it
      may trigger finds the date's year already equal and does not write back. */
  lemma SetDateWritesOnce(s: State, d: Date)
    ensures DateWrites(SetDate(s, d).trace) == DateWrites(s.trace) + 1
  {
    var w := DateSelection(s.min, s.max, d);
    SetDateOutcome(s, d);
    var tail := if w == s.selected then []
                else if w.None? then [ListCleared] else [ListIndexSelected(d.year - s.min)];
    DateWritesAppend(s.trace + [DateWritten(d)], tail);
    DateWritesAppend(s.trace, [DateWritten(d)]);
    assert DateWrites([DateWritten(d)]) == 1 by {
      assert [DateWritten(d)][..0] == [];
    }
    assert DateWrites(tail) == 0 by {
      if tail != [] {
        assert tail[..0] == [];
      }
    }
  }

  // ---------------------------------------------------------------------------
  // The selected observer
  // ---------------------------------------------------------------------------

  /** Assigning `null`: the list selection is cleared if there was a selected
      year, and the date is never touched. */
  lemma SelectNullOutcome(s: State)
    ensures var r := SetSelected(s, None);
      && r.date == s.date
      && r.selected == None
      && r.listSel == (if s.selected.None? then s.listSel else None)
      && r.trace == s.trace + (if s.selected.None? then [] else [ListCleared])
  {
  }

  /** Assigning a year that the date observer accepts back (in range, or already
      the date's year): `selected` takes it, the date carries it (replaced only if
      its year differed, its remainder kept), and the list selects index `y - min`. */
  lemma SelectYearOutcome(s: State, y: int)
    requires Settles(s, y)
    requires s.selected != Some(y)
    ensures var r := SetSelected(s, Some(y));
      && r.selected == Some(y)
      && r.date.year == y && r.date.rest == s.date.rest
      && (r.date == s.date <==> s.date.year == y)
      && r.listSel == Some(y - s.min)
      && r.trace == s.trace
                    + (if s.date.year != y then [DateWritten(WithYear(s.date, y))] else [])
                    + [ListIndexSelected(y - s.min)]
  {
    var s2 := s.(selected := Some(y));
    assert SetSelected(s, Some(y)) == SelectedChange(s2);
    if y != s.date.year {
      var nd := WithYear(s.date, y);
      SetDateOutcome(s2, nd);
      assert DateSelection(s2.min, s2.max, nd) == Some(y);
      var s1 := SetDate(s2, nd);
      assert s1.trace == s.trace + [DateWritten(nd)];
      assert SelectedChange(s2) == SelectYearInList(s1, y);
    } else {
      assert SelectedChange(s2) == SelectYearInList(s2, y);
    }
  }

  /** No redundant write: a selection change writes the date exactly when the
      date's year differs, and at most once. */
  lemma SelectYearWritesDateOnlyIfYearDiffers(s: State, y: int)
    requires Settles(s, y)
    ensures DateWrites(SetSelected(s, Some(y)).trace)
            == DateWrites(s.trace) + (if s.selected != Some(y) && s.date.year != y then 1 else 0)
  {
    if s.selected != Some(y) {
      SelectYearOutcome(s, y);
      var written := if s.date.year != y then [DateWritten(WithYear(s.date, y))] else [];
      DateWritesAppend(s.trace + written, [ListIndexSelected(y - s.min)]);
      DateWritesAppend(s.trace, written);
      assert [ListIndexSelected(y - s.min)][..0] == [];
      if written != [] {
        assert written[..0] == [];
      }
    }
  }

  /** Assigning a year outside the range that is not the date's year: the date
      is rewritten to that year, the date observer sends `selected` back to
      `null` and clears the list, and then the outer observer still asks the
      list to select index `y - min`. That index lies outside the list's rows;
      because the list is a plain field here, the selection stays recorded while
      `selected` is `null`. */
  lemma SelectOutOfRangeOutcome(s: State, y: int)
    requires !WithinRange(s.min, s.max, y) && y != s.date.year
    requires s.selected != Some(y)
    ensures var r := SetSelected(s, Some(y));
      && r.selected == None
      && r.date == WithYear(s.date, y)
      && r.listSel == Some(y - s.min)
      && r.trace == s.trace + [DateWritten(WithYear(s.date, y)), ListCleared, ListIndexSelected(y - s.min)]
      && !Synced(r)
      && (Valid(s) ==> !(0 <= y - s.min < |s.years|))
  {
    var s2 := s.(selected := Some(y));
    assert SetSelected(s, Some(y)) == SelectedChange(s2);
    var nd := WithYear(s.date, y);
    SetDateOutcome(s2, nd);
    assert DateSelection(s2.min, s2.max, nd) == None;
    var s1 := SetDate(s2, nd);
    assert s1.trace == s.trace + [DateWritten(nd), ListCleared];
    assert SelectedChange(s2) == SelectYearInList(s1, y);
  }

  /** Assigning the value `selected` already ends on changes nothing. Years out
      of range are excluded because the first assignment of such a year ends on
      `null`, not on the year; see `SetSelectedOutOfRangeTwice`. */
  lemma SetSelectedIdempotent(s: State, v: Option<int>)
    requires v.None? || Settles(s, v.value)
    ensures SetSelected(SetSelected(s, v), v) == SetSelected(s, v)
  {
  }

  /** An in-range year assigned to `selected` ends as the date's year with
      list index `selected - min`, so `selected` again follows the date. */
  lemma SelectInRangeFollowsDate(s: State, y: int)
    requires WithinRange(s.min, s.max, y)
    requires SelectionFollowsDate(s)
    ensures SelectionFollowsDate(SetSelected(s, Some(y)))
  {
  }

  /** Assigning `null` while the date's year is within range leaves `selected`
      `null` although the date observer would pick that year: the programmatic
      path does not keep `selected` following the date. */
  lemma SelectNullBreaksDateSelection(s: State)
    requires WithinRange(s.min, s.max, s.date.year)
    ensures var r := SetSelected(s, None);
      && r.date == s.date
      && r.selected == None
      && !SelectionFollowsDate(r)
  {
  }

  /** Assigning the date's own year when it is out of range: no date write, the
      out-of-range year stays selected, and the list is asked for index `y - min`,
      although the date observer would give `null`. */
  lemma SelectOutOfRangeDateYearBreaksDateSelection(s: State)
    requires !WithinRange(s.min, s.max, s.date.year)
    requires s.selected != Some(s.date.year)
    ensures var r := SetSelected(s, Some(s.date.year));
      && r.date == s.date
      && r.selected == Some(s.date.year)
      && r.listSel == Some(s.date.year - s.min)
      && Synced(r)
      && !SelectionFollowsDate(r)
  {
  }

  /** Assigning the same out-of-range year twice is not idempotent: the first
      assignment rewrites the date and ends on `null`; the second finds the
      date's year equal, writes nothing and ends on the year. */
  lemma SetSelectedOutOfRangeTwice(s: State, y: int)
    requires !WithinRange(s.min, s.max, y) && y != s.date.year
    requires s.selected != Some(y)
    ensures SetSelected(s, Some(y)).selected == None
    ensures SetSelected(SetSelected(s, Some(y)), Some(y)).selected == Some(y)
  {
  }

  // ---------------------------------------------------------------------------
  // Taps
  // ---------------------------------------------------------------------------

  /** Tapping the row of a year other than the selected one: the list selects the
      tapped row (by item, then again by index `year - min`, the same row), and
      `selected` and the date's year become the tapped year. The result is
      synchronised whatever state the tap started from. */
  lemma TapOutcome(s: State, row: nat)
    requires Valid(s) && row < |s.years|
    requires s.selected != Some(s.min + row)
    ensures var r := Tap(s, row);
      var y := s.min + row;
      && s.years[row] == y
      && r.selected == Some(y)
      && r.date == WithYear(s.date, y)
      && r.listSel == Some(row)
      && r.trace == s.trace + [ListItemSelected(row)]
                    + (if s.date.year != y then [DateWritten(WithYear(s.date, y))] else [])
                    + [ListIndexSelected(row)]
      && Synced(r)
  {
    var y := s.min + row;
    RowsAreWithinRange(s.min, s.max, row);
    var s' := s.(listSel := Some(row), trace := s.trace + [ListItemSelected(row)]);
    assert Tap(s, row) == SetSelected(s', Some(y));
    SelectYearOutcome(s', y);
  }

  /** Tapping a row twice is the same as tapping it once. */
  lemma TapIdempotent(s: State, row: nat)
    requires Valid(s) && row < |s.years|
    ensures row < |Tap(s, row).years|
    ensures Tap(Tap(s, row), row) == Tap(s, row)
  {
  }

  // ---------------------------------------------------------------------------
  // Bounds and rows
  // ---------------------------------------------------------------------------

  /** A bound change does not re-synchronise the selection: with a year selected,
      moving `min` makes no call on the list and leaves `selected` alone. The
      list widget receives a new items array; its reaction to that is not part
      of this model, so the recorded index stays the one computed from the old
      `min`. */
  lemma MinChangeLeavesListIndexStale(s: State, m: int)
    requires Synced(s) && s.selected.Some? && m != s.min
    ensures var r := SetMin(s, Num(m));
      && r.selected == s.selected
      && r.listSel == s.listSel
      && !ListTracksSelection(r)
  {
  }

  /** With both bounds non-zero and the items computed from them, a selection
      that follows the date sits on a real row: the list index holds the
      selected year. */
  lemma SelectedIndexIsRow(s: State)
    requires Valid(s) && s.min != 0 && s.max != 0
    requires SelectionFollowsDate(s) && s.selected.Some?
    ensures 0 <= s.listSel.value < |s.years|
    ensures s.years[s.listSel.value] == s.selected.value
  {
  }

  /** With `max` set to 0 the items array is empty, yet the range test treats 0
      as "no bound": a date in 2023, assigned after the bound changed, is
      selected and the list is asked for index 123, which has no row. */
  lemma ZeroMaxSelectsIndexWithoutRow(rest: int)
    ensures var s := SetMax(Attach(Date(1800, rest)), Num(0));
      var r := SetDate(s, Date(2023, rest));
      && |s.years| == 0 && s.selected == None
      && |r.years| == 0
      && r.selected == Some(2023)
      && r.listSel == Some(123)
      && r.trace == s.trace + [DateWritten(Date(2023, rest)), ListIndexSelected(123)]
      && Synced(r) && SelectionFollowsDate(r)
  {
    SetDateOutcome(SetMax(Attach(Date(1800, rest)), Num(0)), Date(2023, rest));
  }

  // ---------------------------------------------------------------------------
  // Runs
  // ---------------------------------------------------------------------------

  /** Everything that can happen to the element from outside. */
  datatype Action =
    | AssignDate(d: Date)
    | AssignSelected(v: Option<int>)
    | TapRow(row: nat)
    | AssignMin(m: JsValue)
    | AssignMax(m: JsValue)

  /** An action is possible: only rendered rows can be tapped. */
  predicate Enabled(s: State, a: Action)
  {
    a.TapRow? ==> a.row < |s.years|
  }

  function Apply(s: State, a: Action): State
    requires Enabled(s, a)
  {
    match a
    case AssignDate(d) => SetDate(s, d)
    case AssignSelected(v) => SetSelected(s, v)
    case TapRow(row) => Tap(s, row)
    case AssignMin(m) => SetMin(s, m)
    case AssignMax(m) => SetMax(s, m)
  }

  /** The state after `actions`, or `None` if one of them was not possible. */
  function Run(s: State, actions: seq<Action>): Option<State>
    decreases |actions|
  {
    if actions == [] then Some(s)
    else if !Enabled(s, actions[0]) then None
    else Run(Apply(s, actions[0]), actions[1..])
  }

  /** The actions that keep the synchroniser's relationship: no bound changes,
      and `selected` assigned only `null` or a year the date observer accepts. */
  predicate Synchronising(s: State, a: Action)
  {
    && !a.AssignMin? && !a.AssignMax?
    && (a.AssignSelected? && a.v.Some? ==> Settles(s, a.v.value))
  }

  /** Along any run the items array stays the one computed from the bounds. */
  lemma {:induction false} RunKeepsValid(s: State, actions: seq<Action>)
    requires Valid(s)
    ensures Run(s, actions).Some? ==> Valid(Run(s, actions).value)
    decreases |actions|
  {
    if actions != [] && Enabled(s, actions[0]) {
      RunKeepsValid(Apply(s, actions[0]), actions[1..]);
    }
  }

  /** The actions after which `selected` follows the date: date assignments,
      taps, and assignments of an in-range year. */
  predicate FollowsDateAction(s: State, a: Action)
  {
    || a.AssignDate?
    || a.TapRow?
    || (a.AssignSelected? && a.v.Some? && WithinRange(s.min, s.max, a.v.value))
  }

  /** Synchronising actions keep the date, `selected` and the list in step; date
      assignments, taps and in-range assignments also keep `selected` equal to
      the date's year when in range and `null` otherwise. */
  lemma ApplyKeepsSynced(s: State, a: Action)
    requires Valid(s) && Synced(s) && Enabled(s, a) && Synchronising(s, a)
    ensures Synced(Apply(s, a))
    ensures SelectionFollowsDate(s) && FollowsDateAction(s, a) ==> SelectionFollowsDate(Apply(s, a))
  {
  }

  /** Along a run of synchronising actions, every state is synchronised; along a
      run of date assignments, taps and in-range assignments, `selected` keeps
      following the date (list index `selected - min`). */
  lemma {:induction false} RunKeepsSynced(s: State, actions: seq<Action>)
    requires Valid(s) && Synced(s)
    ensures Run(s, actions).Some? && AllSynchronising(s, actions) ==> Synced(Run(s, actions).value)
    ensures Run(s, actions).Some? && SelectionFollowsDate(s) && AllFollowDate(s, actions) ==>
              SelectionFollowsDate(Run(s, actions).value)
    decreases |actions|
  {
    if actions != [] && Enabled(s, actions[0]) {
      var a := actions[0];
      if Synchronising(s, a) || (SelectionFollowsDate(s) && FollowsDateAction(s, a)) {
        assert Synchronising(s, a);
        ApplyKeepsSynced(s, a);
        RunKeepsValid(s, [a]);
        assert Run(s, [a]) == Some(Apply(s, a));
        RunKeepsSynced(Apply(s, a), actions[1..]);
      }
    }
  }

  /** Every action of the run keeps `selected` following the date. */
  predicate AllFollowDate(s: State, actions: seq<Action>)
    decreases |actions|
  {
    actions == [] ||
    (Enabled(s, actions[0]) && FollowsDateAction(s, actions[0])
     && AllFollowDate(Apply(s, actions[0]), actions[1..]))
  }

  /** Every action of the run is synchronising in the state it is applied to. */
  predicate AllSynchronising(s: State, actions: seq<Action>)
    decreases |actions|
  {
    actions == [] ||
    (Enabled(s, actions[0]) && Synchronising(s, actions[0])
     && AllSynchronising(Apply(s, actions[0]), actions[1..]))
  }

  // ---------------------------------------------------------------------------
  // Example scenarios
  // ---------------------------------------------------------------------------

  /** Default bounds, date in 2023: 2023 is selected; tapping the row of 1999
      selects 1999 and moves the date to 1999, keeping month and day. */
  lemma ScenarioTapAnotherYear(rest: int)
    ensures var s := Attach(Date(2023, rest));
      && s.selected == Some(2023)
      && s.listSel == Some(123)
      && 99 < |s.years|
      && var t := Tap(s, 99);
         t.selected == Some(1999) && t.date == Date(1999, rest) && t.listSel == Some(99)
  {
  }

  /** Bounds 2000 to 2010 and a date in 1990: nothing is selected. */
  lemma ScenarioDateOutOfRange(d: Date)
    requires d.year == 1990
    ensures var s := SetDate(SetMax(SetMin(Attach(d), Num(2000)), Num(2010)), d);
      s.selected == None && s.listSel == None && s.years == YearRange(2000, 2010)
  {
    var s0 := SetMax(SetMin(Attach(d), Num(2000)), Num(2010));
    assert s0.selected == Some(1990);
    SetDateOutcome(s0, d);
  }
}

=== FILE: years.dfy ===
/**
 The range side of the year list: the sequence of selectable years derived
 from the `min` and `max` bounds, the bounds' reset-to-default rule, and the
 inclusive range test (with its truthiness quirk).

 Each element of a year sequence stands for one `{year: Y}` row item of the
 list; the element's position is the row index.
 */
module Years {
  import opened Values

  const DefaultMin: int := 1900
  const DefaultMax: int := 2100

  /** The rows from `lo` to `hi`, one per year, ascending; empty when `lo > hi`. */
  function YearRange(lo: int, hi: int): (r: seq<int>)
    ensures |r| == if lo <= hi then hi - lo + 1 else 0
    ensures forall i :: 0 <= i < |r| ==> r[i] == lo + i
    decreases hi - lo
  {
    if lo > hi then [] else [lo] + YearRange(lo + 1, hi)
  }

  /** The years array handed to the list. Non-numeric bounds produce no array at
      all (`undefined`); otherwise the loop pushes `min, min + 1, ..., max`. */
  method ComputeYears(min: JsValue, max: JsValue) returns (r: Option<seq<int>>)
    ensures r.None? <==> !min.Num? || !max.Num?
    ensures r.Some? ==> |r.value| == if min.n <= max.n then max.n - min.n + 1 else 0
    ensures r.Some? ==> forall i :: 0 <= i < |r.value| ==> r.value[i] == min.n + i
    ensures r.Some? ==> r.value == YearRange(min.n, max.n)
  {
    if !min.Num? || !max.Num? {
      return None;
    }
    var years: seq<int> := [];
    var y := min.n;
    while y <= max.n
      invariant y == min.n || min.n < y <= max.n + 1
      invariant |years| == y - min.n
      invariant forall i :: 0 <= i < |years| ==> years[i] == min.n + i
    {
      years := years + [y];
      y := y + 1;
    }
    var expected := YearRange(min.n, max.n);
    assert |years| == |expected|;
    assert forall i :: 0 <= i < |years| ==> years[i] == expected[i];
    return Some(years);
  }

  /** The row index of `year` in a list that starts at `min`: `year - min`.
      Both the list-selection synchroniser and the scroll routine rely on it. */
  lemma RowIndexAddressesYear(min: int, max: int, year: int)
    requires min <= year <= max
    ensures 0 <= year - min < |YearRange(min, max)|
    ensures YearRange(min, max)[year - min] == year
  {
  }

  /** Membership in a year range is exactly the inclusive interval test. */
  lemma InYearRange(min: int, max: int, year: int)
    ensures year in YearRange(min, max) <==> min <= year <= max
  {
    if min <= year <= max {
      RowIndexAddressesYear(min, max, year);
    }
  }

  /** The value a bound holds once its observer has run: a number is kept,
      anything else is replaced by the bound's default. */
  function SettleBound(v: JsValue, default: int): int
  {
    match v
    case Num(n) => n
    case NonNumber => default
  }

  /** The range test as the widget writes it. A bound is only consulted when it
      is truthy, so a bound of 0 restricts nothing; otherwise both bounds are
      inclusive. */
  function WithinRange(min: int, max: int, year: int): (r: bool)
    ensures min != 0 && max != 0 ==> (r <==> min <= year <= max)
    ensures min == 0 && max != 0 ==> (r <==> year <= max)
    ensures min != 0 && max == 0 ==> (r <==> min <= year)
    ensures min == 0 && max == 0 ==> r
  {
    !((min != 0 && year < min) || (max != 0 && year > max))
  }

  /** Every row of the list passes the range test, whatever the bounds. */
  lemma RowsAreWithinRange(min: int, max: int, i: int)
    requires 0 <= i < |YearRange(min, max)|
    ensures WithinRange(min, max, YearRange(min, max)[i])
  {
  }
}
